=== FILE: README.md ===
# nix-index-pretty, modelled in Dafny

nix-index-pretty is a small filter that sits after `nix-locate`. It reads
result lines of the form `pkg  size type /nix/store/.../bin/cmd`. It keeps one
line per command, either `cmd\t(from pkg)` or, when a command is provided by
more than one line, `cmd\t(from multiple sources)`.

The project has two modules:

- `Tokenizer` (tokenizer.dfy) models `tokenize`.
  - The package field is the text before the first space (`FirstField`).
  - The command field is the text after the last slash (`LastSegment`), with
    Python's `str.strip()` applied (`Strip`). Stripping uses the full
    `str.isspace()` character set.
  - Two filters drop lines:
    - wrapper shims: a command that starts with `.` and whose last eight
      characters are `-wrapped`;
    - virtual packages: a package written `(…)`.
  - An empty command, or an empty package after a non-shim command, makes
    Python raise `IndexError`. This is the third outcome of `Token`.
- `Dedup` (dedup.dfy) models the script's driver.
  - `Filter` is the read/update loop over the dict `matches` and the list
    `multis`, followed by the final loop that prints what is left in
    `matches`.
  - `Filter` is proved against the specification
    `Texts(Reports(Tokens(lines)))`, the printed text of each report. The
    properties are then proved as lemmas about
    `Run`, the state after the loop:
    - the per-command state machine: unseen, then resolved to a package,
      then ambiguous for good;
    - which reports are printed, in which order, each exactly once;
    - what happens when `tokenize` raises.

On an empty command the script evaluates `cmd[0]` and raises `IndexError`.
It does the same with `pkg[0]` on an empty package after a command that is not
a shim. The model follows the code: the run stops at that line. The
"(from multiple sources)" lines already printed stay printed, and the final
loop does not run.

## Model

| member | source | states |
|---|---|---|
| Tokenizer.FirstField | nix-index-pretty.py:8 | the package field is a prefix of the line, holds no space, and ends at the first space or at the end of the line |
| Tokenizer.FirstFieldUnique | nix-index-pretty.py:8 | any space-free prefix that ends at a space or at the end of the line is the package field |
| Tokenizer.PackageFieldOfLine | nix-index-pretty.py:8 | for a line `pkg + " " + rest` with a space-free `pkg`, the package field is `pkg` |
| Tokenizer.LastSegment | nix-index-pretty.py:9 | the last segment is a suffix of the line with no slash, preceded by a slash or starting the line |
| Tokenizer.LastSegmentUnique | nix-index-pretty.py:9 | any slash-free suffix preceded by a slash, or equal to the whole line, is the last segment |
| Tokenizer.LastSegmentOfLine | nix-index-pretty.py:9 | the text after a line's last slash is its last segment |
| Tokenizer.Strip | nix-index-pretty.py:9 | the stripped text is empty, or neither starts nor ends with whitespace |
| Tokenizer.StripRemovesOnlySpace | nix-index-pretty.py:9 | stripping only removes a whitespace prefix and a whitespace suffix; the input is prefix + result + suffix |
| Tokenizer.StripUnique | nix-index-pretty.py:9 | any split of a string into whitespace, a core with non-space ends, and whitespace has that core as the stripped result |
| Tokenizer.CommandFieldOfLine | nix-index-pretty.py:9 | for `front + "/" + cmd + ws`, with a slash-free, already-stripped `cmd` and all-whitespace `ws` (the newline), the command field is `cmd` |
| Tokenizer.WrapperShimIsSuffixTest | nix-index-pretty.py:7-10 | the shim test `cmd[0] == '.' and cmd[-8:] == "-wrapped"` holds iff the command is at least 8 long, starts with `.` and ends with `-wrapped` |
| Tokenizer.WrapperShimDiscarded | nix-index-pretty.py:10-11 | a line whose command is a wrapper shim is dropped, even with an empty package field |
| Tokenizer.VirtualPackageDiscarded | nix-index-pretty.py:12-13 | a non-empty, non-shim command whose package is `(…)` is dropped |
| Tokenizer.Tokenize | nix-index-pretty.py:6-15 | a line yields a pair iff both fields are non-empty and pass both filters, and the pair is then (command field, package field); it raises iff the command is empty, or the command is not a shim and the package is empty |
| Tokenizer.TokenizeWellFormedLine | nix-index-pretty.py:6-15 | a well-formed line `pkg dir/cmd\n` yields `(cmd, pkg)` unless the shim or virtual-package filter drops it |
| Dedup.IndexOf | nix-index-pretty.py:26 | the position found holds `cmd`, and no earlier entry does |
| Dedup.Pop | nix-index-pretty.py:27 | `matches.pop(cmd)` removes exactly the entry for `cmd`; the others keep their insertion order |
| Dedup.Accept | nix-index-pretty.py:24-31 | after a candidate the command is in `matches` or in `multis`; the only line it may print is its own "(from multiple sources)" notice; it adds at most one command to `matches` and `multis` together |
| Dedup.Feed | nix-index-pretty.py:21-31 | one loop turn: the run has stopped iff it had already stopped or `tokenize` raised; the raising line only stops the run and prints nothing; a stopped run and a dropped line change nothing; printed lines are never taken back |
| Dedup.Run | nix-index-pretty.py:17-31 | after the read loop, `matches` and `multis` together hold at most one command per input line, and at most one notice per line has been printed |
| Dedup.Output | nix-index-pretty.py:33-34 | the output starts with the notices; after a raise nothing follows them, otherwise one line per entry of `matches` |
| Dedup.Reports | nix-index-pretty.py:17-34 | the notices printed during the loop are a prefix of the output, and after a raise they are the whole output |
| Dedup.Text | nix-index-pretty.py:29-34 | a printed line is the command, a tab, then "(from multiple sources)" for a notice or "(from " + pkg + ")" for a final line |
| Dedup.Filter | nix-index-pretty.py:17-34 | the script prints exactly `Texts(Reports(Tokens(lines)))`, and reports a raise exactly when the run crashed |
| Dedup.PrintFinals | nix-index-pretty.py:33-34 | the final loop appends one `cmd\t(from pkg)` line per entry of `matches`, in insertion order |
| Dedup.FeedKeepsInvariant | nix-index-pretty.py:21-31 | one loop turn keeps the invariant: `matches` holds the commands seen once, with their first package, in first-seen order; `multis` holds those seen twice or more, without repeats, in the order of the printed notices |
| Dedup.RunKeepsInvariant | nix-index-pretty.py:17-31 | the invariant above holds after any run in which `tokenize` did not raise |
| Dedup.DiscardChangesNothing | nix-index-pretty.py:21-22 | a dropped line changes neither `matches`, `multis` nor the output |
| Dedup.FirstOccurrenceRecorded | nix-index-pretty.py:30-31 | a command's first occurrence appends `(cmd, pkg)` to `matches` and changes nothing else: `multis` and the output stay as they were |
| Dedup.SecondOccurrenceAmbiguous | nix-index-pretty.py:26-29 | at a command's second occurrence the command is in `matches`; the new state is `matches` with its entry popped, `multis` with the command appended, and the "(from multiple sources)" line printed at once, even when the package is the same |
| Dedup.LaterOccurrencesIgnored | nix-index-pretty.py:24-25 | third and later occurrences change nothing |
| Dedup.ResolvedAndAmbiguousDisjoint | nix-index-pretty.py:24-31 | no command is in both `matches` and `multis`, and neither holds a command twice |
| Dedup.CrashIsFinal | nix-index-pretty.py:10-12 | once `tokenize` has raised, no later line changes the state |
| Dedup.CrashReports | nix-index-pretty.py:10-12 | when `tokenize` raises on a line of a live run, the whole output is the notices printed before that line |
| Dedup.CrashedIffIndexError | nix-index-pretty.py:10-12 | the run stops iff `tokenize` raises on one of its lines |
| Dedup.OutputShape | nix-index-pretty.py:29-34 | the output starts with one "(from multiple sources)" line per entry of `multis`, in the order of `multis`; all "(from pkg)" lines follow, in the order their commands were first seen |
| Dedup.ResolvedReports | nix-index-pretty.py:30-34 | `cmd\t(from pkg)` is printed iff `cmd` was accepted exactly once, with package `pkg` |
| Dedup.AmbiguousReports | nix-index-pretty.py:24-29 | `cmd\t(from multiple sources)` is printed iff `cmd` was accepted at least twice |
| Dedup.ReportsPrintedOnce | nix-index-pretty.py:24-34 | no report is printed twice |
| Dedup.EmptyInputPrintsNothing | nix-index-pretty.py:17-20 | empty input prints nothing |
| Dedup.AmbiguityScenario | nix-index-pretty.py:17-34 | a command from two packages, with two dropped lines in between, prints only its ambiguity notice, even when the packages are equal |

## Left out

- The `readline` loop and its end-of-input test are not modelled. The input is the sequence of lines `readline` returned before end of input. Each is non-empty (an empty string ends the loop, nix-index-pretty.py:19-20, so `Filter` requires it), and all but possibly the last end in a newline.
- Standard input and output are not modelled. The printed lines are a returned sequence of strings, without the newline `print` adds.
- When `tokenize` raises, the traceback and the exit status are not modelled. The model only records that the run stopped, and what was printed before it.
- The dict `matches` is an association sequence of `(cmd, pkg)` entries in insertion order. `matches.update({cmd: pkg})` is modelled as appending, because the source calls it only for a key that is not present.
- The driver lemmas are stated over `Run` on a sequence of tokens. They therefore hold for any classification of the lines. `Filter` uses them with `Tokenize`.

=== FILE: dedup.dfy ===
/**
 * The driver of nix-index-pretty: it feeds every input line to `Tokenize`,
 * keeps the commands seen exactly once in the insertion-ordered dict
 * `matches` and the ambiguous ones in the list `multis`, prints a
 * "(from multiple sources)" line the moment a command becomes ambiguous, and
 * at the end of input prints a "(from pkg)" line for every command still in
 * `matches`.
 *
 * Per command the state moves Unseen -> Resolved(pkg) -> Ambiguous, and
 * Ambiguous is final.
 */
module Dedup {
  import opened Tokenizer

  /** One entry of the dict `matches`: a command and the package it came from. */
  datatype Entry = Entry(cmd: string, pkg: string)

  /** A line the filter prints. */
  datatype Report = MultipleSources(cmd: string) | From(cmd: string, pkg: string)

  /**
   * The text printed for a report (`print` adds the newline): the command, a
   * tab, and the parenthesised source.
   */
  function Text(r: Report): (t: string)
    ensures r.cmd <= t && |t| > |r.cmd| && t[|r.cmd|] == '\t'
    ensures r.MultipleSources? ==> t[|r.cmd| + 1..] == "(from multiple sources)"
    ensures r.From? ==> t[|r.cmd| + 1..] == "(from " + r.pkg + ")"
  {
    match r
    case MultipleSources(cmd) => cmd + "\t(from multiple sources)"
    case From(cmd, pkg) => cmd + "\t(from " + pkg + ")"
  }

  function Texts(rs: seq<Report>): seq<string> {
    seq(|rs|, i requires 0 <= i < |rs| => Text(rs[i]))
  }

  lemma TextsSnoc(rs: seq<Report>, r: Report)
    ensures Texts(rs + [r]) == Texts(rs) + [Text(r)]
  {
  }

  /** `matches.keys()`, in insertion order. */
  function Keys(matches: seq<Entry>): seq<string> {
    seq(|matches|, i requires 0 <= i < |matches| => matches[i].cmd)
  }

  /** Position of the first entry for `cmd`. */
  function IndexOf(matches: seq<Entry>, cmd: string): (k: nat)
    requires cmd in Keys(matches)
    ensures k < |matches| && matches[k].cmd == cmd
    ensures forall i :: 0 <= i < k ==> matches[i].cmd != cmd
  {
    if matches[0].cmd == cmd then 0
    else
      assert Keys(matches)[1..] == Keys(matches[1..]);
      1 + IndexOf(matches[1..], cmd)
  }

  /** `matches.pop(cmd)`, whose key the source has just found: the other entries keep their order. */
  function Pop(matches: seq<Entry>, cmd: string): (rest: seq<Entry>)
    requires cmd in Keys(matches)
    ensures |rest| == |matches| - 1
    ensures forall i :: 0 <= i < |rest| ==>
      rest[i] == matches[if i < IndexOf(matches, cmd) then i else i + 1]
  {
    var k := IndexOf(matches, cmd);
    matches[..k] + matches[k + 1..]
  }

  /** The driver's state: `matches`, `multis`, the lines printed so far, and whether `tokenize` raised. */
  datatype Scan = Scan(matches: seq<Entry>, multis: seq<string>, notices: seq<Report>, crashed: bool)

  const START := Scan([], [], [], false)

  /**
   * The update for one candidate `(cmd, pkg)`: afterwards the command is
   * known, and the only line it may print is its own ambiguity notice.
   */
  function Accept(s: Scan, cmd: string, pkg: string): (r: Scan)
    ensures r.crashed == s.crashed
    ensures cmd in Keys(r.matches) || cmd in r.multis
    ensures r.notices == s.notices || r.notices == s.notices + [MultipleSources(cmd)]
    ensures |r.matches| + |r.multis| <= |s.matches| + |s.multis| + 1
  {
    if cmd in s.multis then s
    else if cmd in Keys(s.matches) then
      s.(matches := Pop(s.matches, cmd), multis := s.multis + [cmd],
         notices := s.notices + [MultipleSources(cmd)])
    else
      var matches := s.matches + [Entry(cmd, pkg)];
      assert Keys(matches)[|s.matches|] == cmd;
      s.(matches := matches)
  }

  /** One turn of the read loop, given what `tokenize` made of the line; an `IndexError` ends the run. */
  function Feed(s: Scan, t: Token): (r: Scan)
    ensures s.crashed ==> r == s
    ensures r.crashed <==> s.crashed || t == IndexError
    ensures t == Discard ==> r == s
    ensures !s.crashed && t == IndexError ==> r == s.(crashed := true)
    ensures s.notices <= r.notices
  {
    if s.crashed then s
    else match t
      case IndexError => s.(crashed := true)
      case Discard => s
      case Candidate(cmd, pkg) => Accept(s, cmd, pkg)
  }

  /** What `tokenize` makes of each input line. */
  function Tokens(lines: seq<string>): seq<Token> {
    TokensBy(Tokenize, lines)
  }

  /** The lines mapped through a classifier, one token per line. */
  function TokensBy(classify: string -> Token, lines: seq<string>): (ts: seq<Token>)
    ensures |ts| == |lines|
  {
    seq(|lines|, k requires 0 <= k < |lines| => classify(lines[k]))
  }

  /** The state after the read loop has consumed lines tokenized as `ts`. */
  function Run(ts: seq<Token>): (s: Scan)
    ensures |s.matches| + |s.multis| <= |ts|
    ensures |s.notices| <= |ts|
  {
    if ts == [] then START
    else Feed(Run(ts[..|ts| - 1]), ts[|ts| - 1])
  }

  /** The final loop's lines, one per entry left in `matches`. */
  function Finals(matches: seq<Entry>): seq<Report> {
    seq(|matches|, i requires 0 <= i < |matches| => From(matches[i].cmd, matches[i].pkg))
  }

  /** Everything the filter prints for lines tokenized as `ts`; after an `IndexError` the final loop never runs. */
  function Reports(ts: seq<Token>): (out: seq<Report>)
    ensures Run(ts).notices <= out
    ensures Run(ts).crashed ==> out == Run(ts).notices
  {
    Output(Run(ts))
  }

  /** What has been printed once the driver stops in state `s`. */
  function Output(s: Scan): (out: seq<Report>)
    ensures s.notices <= out
    ensures |out| == |s.notices| + (if s.crashed then 0 else |s.matches|)
  {
    if s.crashed then s.notices else s.notices + Finals(s.matches)
  }

  // ---------------------------------------------------------------------
  // The filter itself.

  /**
   * The script: the read/update loop, then the emission loop over `matches`.
   * `crashed` says that `tokenize` raised on some line; `out` then holds what
   * was printed before it.
   */
  method Filter(lines: seq<string>) returns (out: seq<string>, crashed: bool)
    requires forall k :: 0 <= k < |lines| ==> lines[k] != ""
    ensures crashed == Run(Tokens(lines)).crashed
    ensures out == Texts(Reports(Tokens(lines)))
  {
    var matches: seq<Entry> := [];
    var multis: seq<string> := [];
    out, crashed := [], false;
    ghost var ts: seq<Token> := [];
    ghost var s := START;
    var i := 0;
    assert lines[..0] == [];
    while i < |lines|
      invariant i <= |lines|
      invariant ts == TokensBy(Tokenize, lines[..i])
      invariant s == Run(ts)
      invariant s == Scan(matches, multis, s.notices, false)
      invariant out == Texts(s.notices)
    {
      var upd := Tokenize(lines[i]);
      TokensSnoc(Tokenize, lines, i);
      RunSnoc(ts, upd);
      match upd {
      case IndexError =>
        crashed := true;
        CrashStops(Tokenize, lines, i + 1);
        return;
      case Discard =>
      case Candidate(cmd, pkg) =>
        if cmd in multis {
          // `continue`: an ambiguous command stays ambiguous
        } else if cmd in Keys(matches) {
          TextsSnoc(s.notices, MultipleSources(cmd));
          matches := Pop(matches, cmd);
          multis := multis + [cmd];
          out := out + [Text(MultipleSources(cmd))];
        } else {
          matches := matches + [Entry(cmd, pkg)];
        }
      }
      ts, s := ts + [upd], Feed(s, upd);
      i := i + 1;
    }
    assert lines[..i] == lines;
    out := PrintFinals(out, matches);
    TextsAppend(s.notices, Finals(matches));
  }

  /** The final loop: one "(from pkg)" line per entry left in `matches`, in insertion order. */
  method PrintFinals(printed: seq<string>, matches: seq<Entry>) returns (out: seq<string>)
    ensures out == printed + Texts(Finals(matches))
  {
    out := printed;
    for j := 0 to |matches|
      invariant out == printed + Texts(Finals(matches[..j]))
    {
      FinalsSnoc(matches, j);
      out := out + [Text(From(matches[j].cmd, matches[j].pkg))];
    }
    assert matches[..|matches|] == matches;
  }

  /** Tokenizing two runs of lines one after the other is tokenizing them together. */
  lemma {:induction false} TokensAppend(classify: string -> Token, a: seq<string>, b: seq<string>)
    ensures TokensBy(classify, a + b) == TokensBy(classify, a) + TokensBy(classify, b)
  {
    if a != [] {
      TokensAppend(classify, a[1..], b);
      assert (a + b)[1..] == a[1..] + b;
    } else {
      assert a + b == b;
    }
  }

  lemma TokensSnoc(classify: string -> Token, lines: seq<string>, i: nat)
    requires i < |lines|
    ensures TokensBy(classify, lines[..i + 1]) == TokensBy(classify, lines[..i]) + [classify(lines[i])]
  {
    assert lines[..i + 1] == lines[..i] + [lines[i]];
    TokensAppend(classify, lines[..i], [lines[i]]);
  }

  lemma TokensSplit(classify: string -> Token, lines: seq<string>, i: nat)
    requires i <= |lines|
    ensures TokensBy(classify, lines) == TokensBy(classify, lines[..i]) + TokensBy(classify, lines[i..])
  {
    assert lines == lines[..i] + lines[i..];
    TokensAppend(classify, lines[..i], lines[i..]);
  }

  /** Once the lines up to `i` have raised, the remaining lines change nothing. */
  lemma CrashStops(classify: string -> Token, lines: seq<string>, i: nat)
    requires i <= |lines| && Run(TokensBy(classify, lines[..i])).crashed
    ensures Run(TokensBy(classify, lines)) == Run(TokensBy(classify, lines[..i]))
  {
    TokensSplit(classify, lines, i);
    CrashIsFinal(TokensBy(classify, lines[..i]), TokensBy(classify, lines[i..]));
  }

  lemma FinalsSnoc(matches: seq<Entry>, j: nat)
    requires j < |matches|
    ensures Texts(Finals(matches[..j + 1])) == Texts(Finals(matches[..j])) + [Text(From(matches[j].cmd, matches[j].pkg))]
  {
    assert Finals(matches[..j + 1]) == Finals(matches[..j]) + [From(matches[j].cmd, matches[j].pkg)];
    TextsSnoc(Finals(matches[..j]), From(matches[j].cmd, matches[j].pkg));
  }

  lemma TextsAppend(rs: seq<Report>, more: seq<Report>)
    ensures Texts(rs + more) == Texts(rs) + Texts(more)
  {
  }

  // ---------------------------------------------------------------------
  // Counting occurrences: the reference the driver is proved against.

  /** Token `t` is an accepted occurrence of command `cmd`. */
  predicate Names(t: Token, cmd: string) {
    t.Candidate? && t.cmd == cmd
  }

  /** How many lines are accepted occurrences of `cmd`. */
  function Count(ts: seq<Token>, cmd: string): nat {
    if ts == [] then 0
    else Count(ts[..|ts| - 1], cmd) + if Names(ts[|ts| - 1], cmd) then 1 else 0
  }

  /** The index of the first accepted occurrence of `cmd`, or `|ts|` when there is none. */
  function FirstSeen(ts: seq<Token>, cmd: string): (i: nat)
    ensures i <= |ts|
    ensures i < |ts| <==> Count(ts, cmd) > 0
    ensures i < |ts| ==> Names(ts[i], cmd)
    ensures forall j :: 0 <= j < i && j < |ts| ==> !Names(ts[j], cmd)
  {
    if ts == [] then 0
    else if Count(ts[..|ts| - 1], cmd) > 0 then FirstSeen(ts[..|ts| - 1], cmd)
    else
      assert FirstSeen(ts[..|ts| - 1], cmd) == |ts| - 1;
      assert forall j :: 0 <= j < |ts| - 1 ==> ts[j] == ts[..|ts| - 1][j];
      if Names(ts[|ts| - 1], cmd) then |ts| - 1 else |ts|
  }

  /** The package of the first accepted occurrence of `cmd`. */
  function FirstPkg(ts: seq<Token>, cmd: string): string
    requires Count(ts, cmd) > 0
  {
    ts[FirstSeen(ts, cmd)].pkg
  }

  predicate NoRepeats<T(==)>(s: seq<T>) {
    forall i, j :: 0 <= i < j < |s| ==> s[i] != s[j]
  }

  /** The driver's invariant, stated against the occurrence counts of the lines read so far. */
  ghost predicate Invariant(ts: seq<Token>, s: Scan) {
    Classified(ts, s) && Recorded(ts, s.matches)
  }

  /**
   * `matches` holds the commands seen once, `multis` those seen more often,
   * each once, and a notice has been printed for each ambiguous command in turn.
   */
  ghost predicate Classified(ts: seq<Token>, s: Scan) {
    && !s.crashed
    && (forall c :: c in Keys(s.matches) <==> Count(ts, c) == 1)
    && (forall c :: c in s.multis <==> Count(ts, c) >= 2)
    && NoRepeats(s.multis)
    && s.notices == seq(|s.multis|, i requires 0 <= i < |s.multis| => MultipleSources(s.multis[i]))
  }

  /** Each entry holds the package of the command's first occurrence, in first-occurrence order. */
  ghost predicate Recorded(ts: seq<Token>, matches: seq<Entry>) {
    && (forall i :: 0 <= i < |matches| ==>
          Count(ts, matches[i].cmd) == 1 && matches[i].pkg == FirstPkg(ts, matches[i].cmd))
    && (forall i, j :: 0 <= i < j < |matches| ==>
          FirstSeen(ts, matches[i].cmd) < FirstSeen(ts, matches[j].cmd))
  }

  lemma RunSnoc(ts: seq<Token>, t: Token)
    ensures Run(ts + [t]) == Feed(Run(ts), t)
  {
    assert (ts + [t])[..|ts|] == ts;
  }

  /** How one more line changes the occurrence counts. */
  lemma CountSnoc(ts: seq<Token>, t: Token, c: string)
    ensures Count(ts + [t], c) == Count(ts, c) + if Names(t, c) then 1 else 0
    ensures Count(ts, c) > 0 ==>
      FirstSeen(ts + [t], c) == FirstSeen(ts, c) && FirstPkg(ts + [t], c) == FirstPkg(ts, c)
    ensures Count(ts, c) == 0 && Names(t, c) ==>
      FirstSeen(ts + [t], c) == |ts| && FirstPkg(ts + [t], c) == t.pkg
  {
    assert (ts + [t])[..|ts|] == ts;
  }

  /** How one more line changes the occurrence counts, for every command at once. */
  lemma CountsSnoc(ts: seq<Token>, t: Token)
    ensures forall c :: Count(ts + [t], c) == Count(ts, c) + if Names(t, c) then 1 else 0
    ensures forall c :: Count(ts, c) > 0 ==>
      FirstSeen(ts + [t], c) == FirstSeen(ts, c) && FirstPkg(ts + [t], c) == FirstPkg(ts, c)
    ensures forall c :: Count(ts, c) == 0 && Names(t, c) ==>
      FirstSeen(ts + [t], c) == |ts| && FirstPkg(ts + [t], c) == t.pkg
  {
    forall c
      ensures Count(ts + [t], c) == Count(ts, c) + if Names(t, c) then 1 else 0
      ensures Count(ts, c) > 0 ==>
        FirstSeen(ts + [t], c) == FirstSeen(ts, c) && FirstPkg(ts + [t], c) == FirstPkg(ts, c)
      ensures Count(ts, c) == 0 && Names(t, c) ==>
        FirstSeen(ts + [t], c) == |ts| && FirstPkg(ts + [t], c) == t.pkg
    {
      CountSnoc(ts, t, c);
    }
  }

  /** A line that names no command of `matches` leaves the entries as they were. */
  lemma UntouchedRecorded(ts: seq<Token>, matches: seq<Entry>, t: Token)
    requires Recorded(ts, matches)
    requires forall i :: 0 <= i < |matches| ==> !Names(t, matches[i].cmd)
    ensures Recorded(ts + [t], matches)
  {
    CountsSnoc(ts, t);
  }

  /** A first occurrence appended to `matches` is recorded with its package, last. */
  lemma AppendRecorded(ts: seq<Token>, matches: seq<Entry>, cmd: string, pkg: string)
    requires Recorded(ts, matches) && Count(ts, cmd) == 0
    ensures Recorded(ts + [Candidate(cmd, pkg)], matches + [Entry(cmd, pkg)])
  {
    var t := Candidate(cmd, pkg);
    var ts' := ts + [t];
    var m' := matches + [Entry(cmd, pkg)];
    CountSnoc(ts, t, cmd);
    forall i | 0 <= i < |m'|
      ensures Count(ts', m'[i].cmd) == 1 && m'[i].pkg == FirstPkg(ts', m'[i].cmd)
      ensures i < |matches| ==> FirstSeen(ts', m'[i].cmd) == FirstSeen(ts, matches[i].cmd) < |ts|
    {
      if i < |matches| {
        assert m'[i] == matches[i];
        CountSnoc(ts, t, matches[i].cmd);
      }
    }
    forall i, j | 0 <= i < j < |m'|
      ensures FirstSeen(ts', m'[i].cmd) < FirstSeen(ts', m'[j].cmd)
    {
      if j < |matches| {
        assert m'[i] == matches[i] && m'[j] == matches[j];
      }
    }
  }

  /** Popping a command seen for the second time keeps the other entries recorded. */
  lemma PopRecorded(ts: seq<Token>, matches: seq<Entry>, cmd: string, pkg: string)
    requires Recorded(ts, matches) && cmd in Keys(matches)
    ensures Recorded(ts + [Candidate(cmd, pkg)], Pop(matches, cmd))
  {
    var t := Candidate(cmd, pkg);
    var ts' := ts + [t];
    var k := IndexOf(matches, cmd);
    var m' := Pop(matches, cmd);
    forall i | 0 <= i < |m'|
      ensures m'[i].cmd != cmd
      ensures FirstSeen(ts', m'[i].cmd) == FirstSeen(ts, m'[i].cmd)
      ensures Count(ts', m'[i].cmd) == 1 && m'[i].pkg == FirstPkg(ts', m'[i].cmd)
    {
      var x := if i < k then i else i + 1;
      assert m'[i] == matches[x];
      if x > k {
        assert FirstSeen(ts, matches[k].cmd) < FirstSeen(ts, matches[x].cmd);
      }
      CountSnoc(ts, t, m'[i].cmd);
    }
    forall i, j | 0 <= i < j < |m'|
      ensures FirstSeen(ts', m'[i].cmd) < FirstSeen(ts', m'[j].cmd)
    {
      assert m'[i] == matches[if i < k then i else i + 1];
      assert m'[j] == matches[if j < k then j else j + 1];
    }
  }

  /** A discarded line keeps the invariant. */
  lemma DiscardKeepsInvariant(ts: seq<Token>, s: Scan)
    requires Invariant(ts, s)
    ensures Invariant(ts + [Discard], s)
  {
    CountsSnoc(ts, Discard);
    UntouchedRecorded(ts, s.matches, Discard);
  }

  /** A further occurrence of an ambiguous command keeps the invariant. */
  lemma AmbiguousKeepsInvariant(ts: seq<Token>, s: Scan, cmd: string, pkg: string)
    requires Invariant(ts, s) && cmd in s.multis
    ensures Invariant(ts + [Candidate(cmd, pkg)], s)
  {
    CountsSnoc(ts, Candidate(cmd, pkg));
    UntouchedRecorded(ts, s.matches, Candidate(cmd, pkg));
  }

  /** Appending an entry adds exactly its key. */
  lemma AppendKeys(matches: seq<Entry>, e: Entry)
    ensures Keys(matches + [e]) == Keys(matches) + [e.cmd]
    ensures forall c :: c in Keys(matches + [e]) <==> c in Keys(matches) || c == e.cmd
  {
    assert Keys(matches + [e]) == Keys(matches) + [e.cmd];
  }

  /** A first occurrence, appended to `matches`, keeps the invariant. */
  lemma FirstKeepsInvariant(ts: seq<Token>, s: Scan, cmd: string, pkg: string)
    requires Invariant(ts, s) && cmd !in s.multis && cmd !in Keys(s.matches)
    ensures Invariant(ts + [Candidate(cmd, pkg)], s.(matches := s.matches + [Entry(cmd, pkg)]))
  {
    CountsSnoc(ts, Candidate(cmd, pkg));
    AppendKeys(s.matches, Entry(cmd, pkg));
    AppendRecorded(ts, s.matches, cmd, pkg);
  }

  /** The commands in `matches` are distinct: their first occurrences are strictly ordered. */
  lemma MatchesDistinct(ts: seq<Token>, matches: seq<Entry>)
    requires Recorded(ts, matches)
    ensures NoRepeats(Keys(matches))
  {
    forall i, j | 0 <= i < j < |matches| ensures Keys(matches)[i] != Keys(matches)[j] {
      assert FirstSeen(ts, matches[i].cmd) < FirstSeen(ts, matches[j].cmd);
    }
  }

  /** Popping a key that occurs once removes exactly that key. */
  lemma PopKeys(matches: seq<Entry>, cmd: string)
    requires cmd in Keys(matches) && NoRepeats(Keys(matches))
    ensures forall c :: c in Keys(Pop(matches, cmd)) <==> c in Keys(matches) && c != cmd
  {
    var k := IndexOf(matches, cmd);
    var keys := Keys(matches);
    assert Keys(Pop(matches, cmd)) == keys[..k] + keys[k + 1..];
    forall c ensures c in keys[..k] + keys[k + 1..] <==> c in keys && c != cmd {
      if c in keys && c != cmd {
        var x :| 0 <= x < |keys| && keys[x] == c;
        if x < k {
          assert keys[..k][x] == c;
        } else {
          assert keys[k + 1..][x - k - 1] == c;
        }
      }
      if c in keys[..k] + keys[k + 1..] {
        assert keys[k] == cmd;
      }
    }
  }

  /** A second occurrence, moved from `matches` to `multis`, keeps the invariant. */
  lemma SecondKeepsInvariant(ts: seq<Token>, s: Scan, cmd: string, pkg: string)
    requires Invariant(ts, s) && cmd !in s.multis && cmd in Keys(s.matches)
    ensures Invariant(ts + [Candidate(cmd, pkg)],
      s.(matches := Pop(s.matches, cmd), multis := s.multis + [cmd],
         notices := s.notices + [MultipleSources(cmd)]))
  {
    CountsSnoc(ts, Candidate(cmd, pkg));
    MatchesDistinct(ts, s.matches);
    PopKeys(s.matches, cmd);
    PopRecorded(ts, s.matches, cmd, pkg);
  }

  /** `Feed` keeps the invariant, with the counts of one more line. */
  lemma FeedKeepsInvariant(ts: seq<Token>, s: Scan, t: Token)
    requires Invariant(ts, s)
    requires t != IndexError
    ensures Invariant(ts + [t], Feed(s, t))
  {
    match t
    case Discard => DiscardKeepsInvariant(ts, s);
    case Candidate(cmd, pkg) =>
      if cmd in s.multis {
        AmbiguousKeepsInvariant(ts, s, cmd, pkg);
      } else if cmd in Keys(s.matches) {
        SecondKeepsInvariant(ts, s, cmd, pkg);
      } else {
        FirstKeepsInvariant(ts, s, cmd, pkg);
      }
  }

  /** The invariant holds after any run that did not raise. */
  lemma {:induction false} RunKeepsInvariant(ts: seq<Token>)
    requires !Run(ts).crashed
    ensures Invariant(ts, Run(ts))
  {
    if ts != [] {
      var init := ts[..|ts| - 1];
      var last := ts[|ts| - 1];
      assert ts == init + [last];
      RunSnoc(init, last);
      RunKeepsInvariant(init);
      FeedKeepsInvariant(init, Run(init), last);
    }
  }

  // ---------------------------------------------------------------------
  // Properties of the driver.

  /** Once `tokenize` has raised, no later line changes anything. */
  lemma {:induction false} CrashIsFinal(ts: seq<Token>, more: seq<Token>)
    requires Run(ts).crashed
    ensures Run(ts + more) == Run(ts)
  {
    if more != [] {
      var init := more[..|more| - 1];
      CrashIsFinal(ts, init);
      assert more == init + [more[|more| - 1]];
      assert ts + more == (ts + init) + [more[|more| - 1]];
      RunSnoc(ts + init, more[|more| - 1]);
    } else {
      assert ts + more == ts;
    }
  }

  /**
   * The line on which `tokenize` raises prints nothing, and nothing after it
   * is printed: the output is the notices printed before that line.
   */
  lemma CrashReports(pre: seq<Token>, more: seq<Token>)
    requires !Run(pre).crashed
    ensures Reports(pre + [IndexError] + more) == Run(pre).notices
  {
    RunSnoc(pre, IndexError);
    CrashIsFinal(pre + [IndexError], more);
  }

  /** A run raises exactly when `tokenize` raises on one of its lines. */
  lemma {:induction false} CrashedIffIndexError(ts: seq<Token>)
    ensures Run(ts).crashed <==> IndexError in ts
  {
    if ts != [] {
      var init := ts[..|ts| - 1];
      CrashedIffIndexError(init);
      assert ts == init + [ts[|ts| - 1]];
    }
  }

  /** A discarded line leaves `matches`, `multis` and the output as they were. */
  lemma DiscardChangesNothing(ts: seq<Token>)
    ensures Run(ts + [Discard]) == Run(ts)
  {
    RunSnoc(ts, Discard);
  }

  /** The first occurrence of a command records it with its package and prints nothing. */
  lemma FirstOccurrenceRecorded(ts: seq<Token>, cmd: string, pkg: string)
    requires !Run(ts).crashed && Count(ts, cmd) == 0
    ensures Run(ts + [Candidate(cmd, pkg)]) == Run(ts).(matches := Run(ts).matches + [Entry(cmd, pkg)])
  {
    RunSnoc(ts, Candidate(cmd, pkg));
    RunKeepsInvariant(ts);
  }

  /**
   * The second occurrence of a command prints "(from multiple sources)" at once
   * and moves the command from `matches` to `multis`, whatever its package,
   * the same package as the first occurrence included.
   */
  lemma SecondOccurrenceAmbiguous(ts: seq<Token>, cmd: string, pkg: string)
    requires !Run(ts).crashed && Count(ts, cmd) == 1
    ensures cmd in Keys(Run(ts).matches)
    ensures Run(ts + [Candidate(cmd, pkg)]) == Run(ts).(
      matches := Pop(Run(ts).matches, cmd),
      multis := Run(ts).multis + [cmd],
      notices := Run(ts).notices + [MultipleSources(cmd)])
    ensures cmd !in Keys(Run(ts + [Candidate(cmd, pkg)]).matches)
  {
    var t := Candidate(cmd, pkg);
    RunSnoc(ts, t);
    RunKeepsInvariant(ts);
    RunKeepsInvariant(ts + [t]);
    CountSnoc(ts, t, cmd);
  }

  /** Any later occurrence of an ambiguous command changes no state and prints nothing. */
  lemma LaterOccurrencesIgnored(ts: seq<Token>, cmd: string, pkg: string)
    requires !Run(ts).crashed && Count(ts, cmd) >= 2
    ensures Run(ts + [Candidate(cmd, pkg)]) == Run(ts)
  {
    RunSnoc(ts, Candidate(cmd, pkg));
    RunKeepsInvariant(ts);
  }

  /** No command is in both `matches` and `multis`, and neither holds a command twice. */
  lemma ResolvedAndAmbiguousDisjoint(ts: seq<Token>)
    requires !Run(ts).crashed
    ensures forall c :: !(c in Keys(Run(ts).matches) && c in Run(ts).multis)
    ensures NoRepeats(Run(ts).multis)
    ensures NoRepeats(Keys(Run(ts).matches))
  {
    RunKeepsInvariant(ts);
    MatchesDistinct(ts, Run(ts).matches);
  }

  /** Where each line of the output comes from: the notices, then the entries of `matches`. */
  lemma OutputLayout(ts: seq<Token>, s: Scan)
    requires Invariant(ts, s)
    ensures var out, k := Output(s), |s.multis|;
      && |out| == k + |s.matches|
      && (forall i :: 0 <= i < k ==> out[i] == MultipleSources(s.multis[i]))
      && (forall i :: k <= i < |out| ==> out[i] == From(s.matches[i - k].cmd, s.matches[i - k].pkg))
  {
  }

  /**
   * The shape of the whole output of a run that did not raise: first the
   * "(from multiple sources)" lines, one per ambiguous command in the order
   * of `multis`, then the "(from pkg)" lines, in the order the commands were
   * first seen.
   */
  lemma OutputShape(ts: seq<Token>)
    requires !Run(ts).crashed
    ensures var out, k := Reports(ts), |Run(ts).notices|;
      && k <= |out|
      && k == |Run(ts).multis|
      && (forall i :: 0 <= i < k ==> out[i] == MultipleSources(Run(ts).multis[i]))
      && (forall i :: k <= i < |out| ==> out[i].From?)
      && (forall i, j :: k <= i < j < |out| ==> FirstSeen(ts, out[i].cmd) < FirstSeen(ts, out[j].cmd))
  {
    RunKeepsInvariant(ts);
    OutputLayout(ts, Run(ts));
  }

  /** A "(from pkg)" line is printed exactly for a command accepted once, with the package of that occurrence. */
  lemma ResolvedReports(ts: seq<Token>, c: string, p: string)
    requires !Run(ts).crashed
    ensures From(c, p) in Reports(ts) <==> Count(ts, c) == 1 && p == FirstPkg(ts, c)
  {
    RunKeepsInvariant(ts);
    ResolvedOutput(ts, Run(ts), c, p);
  }

  lemma ResolvedOutput(ts: seq<Token>, s: Scan, c: string, p: string)
    requires Invariant(ts, s)
    ensures From(c, p) in Output(s) <==> Count(ts, c) == 1 && p == FirstPkg(ts, c)
  {
    OutputLayout(ts, s);
    var out, k := Output(s), |s.multis|;
    if From(c, p) in out {
      var i :| 0 <= i < |out| && out[i] == From(c, p);
    }
    if Count(ts, c) == 1 && p == FirstPkg(ts, c) {
      assert c in Keys(s.matches);
      var x :| 0 <= x < |s.matches| && Keys(s.matches)[x] == c;
      assert out[k + x] == From(c, p);
    }
  }

  /** A "(from multiple sources)" line is printed exactly for a command accepted twice or more. */
  lemma AmbiguousReports(ts: seq<Token>, c: string)
    requires !Run(ts).crashed
    ensures MultipleSources(c) in Reports(ts) <==> Count(ts, c) >= 2
  {
    RunKeepsInvariant(ts);
    AmbiguousOutput(ts, Run(ts), c);
  }

  lemma AmbiguousOutput(ts: seq<Token>, s: Scan, c: string)
    requires Invariant(ts, s)
    ensures MultipleSources(c) in Output(s) <==> Count(ts, c) >= 2
  {
    OutputLayout(ts, s);
    var out := Output(s);
    if MultipleSources(c) in out {
      var i :| 0 <= i < |out| && out[i] == MultipleSources(c);
      assert s.multis[i] == c;
    }
    if Count(ts, c) >= 2 {
      var x :| 0 <= x < |s.multis| && s.multis[x] == c;
      assert out[x] == MultipleSources(c);
    }
  }

  /** No report is printed twice: with the two lemmas above, each is printed exactly once. */
  lemma ReportsPrintedOnce(ts: seq<Token>)
    requires !Run(ts).crashed
    ensures NoRepeats(Reports(ts))
  {
    RunKeepsInvariant(ts);
    OutputOnce(ts, Run(ts));
  }

  lemma OutputOnce(ts: seq<Token>, s: Scan)
    requires Invariant(ts, s)
    ensures NoRepeats(Output(s))
  {
    OutputLayout(ts, s);
    MatchesDistinct(ts, s.matches);
    var out, k := Output(s), |s.multis|;
    forall i, j | 0 <= i < j < |out| ensures out[i] != out[j] {
      if k <= i {
        assert out[i].cmd == Keys(s.matches)[i - k] && out[j].cmd == Keys(s.matches)[j - k];
      }
    }
  }

  /** No input, no output. */
  lemma EmptyInputPrintsNothing()
    ensures Reports(Tokens([])) == []
  {
  }

  /**
   * A command from two packages, with two discarded lines between them: the
   * only line printed is the ambiguity notice, even when both packages are
   * the same.
   */
  lemma AmbiguityScenario(cmd: string, pkgA: string, pkgB: string)
    ensures Reports([Candidate(cmd, pkgA), Discard, Discard, Candidate(cmd, pkgB)]) == [MultipleSources(cmd)]
  {
    var t0, t1, t2, t3 := Candidate(cmd, pkgA), Discard, Discard, Candidate(cmd, pkgB);
    RunSnoc([], t0);
    assert [t0] == [] + [t0];
    var s1 := Scan([Entry(cmd, pkgA)], [], [], false);
    assert Run([t0]) == s1;
    RunSnoc([t0], t1);
    assert [t0] + [t1] == [t0, t1];
    assert Run([t0, t1]) == s1;
    RunSnoc([t0, t1], t2);
    assert [t0, t1] + [t2] == [t0, t1, t2];
    assert Run([t0, t1, t2]) == s1;
    RunSnoc([t0, t1, t2], t3);
    assert [t0, t1, t2] + [t3] == [t0, t1, t2, t3];
    assert Keys(s1.matches) == [cmd];
    assert Pop(s1.matches, cmd) == [];
    var s4 := Scan([], [cmd], [MultipleSources(cmd)], false);
    assert Accept(s1, cmd, pkgB) == s4;
    assert Run([t0, t1, t2, t3]) == s4;
  }
}

=== FILE: tokenizer.dfy ===
/**
 * The line classifier of nix-index-pretty: one `nix-locate` output line
 * becomes either a `(command, package)` candidate, a discarded line, or the
 * `IndexError` that Python raises when it indexes an empty command or an
 * empty package.
 */
module Tokenizer {

  /** Python's `str.isspace()`, the set of characters `str.strip()` removes. */
  predicate IsSpace(c: char) {
    var n := c as int;
    || 0x09 <= n <= 0x0D
    || 0x1C <= n <= 0x20
    || n == 0x85 || n == 0xA0 || n == 0x1680
    || 0x2000 <= n <= 0x200A
    || n == 0x2028 || n == 0x2029 || n == 0x202F || n == 0x205F || n == 0x3000
  }

  predicate AllSpace(s: string) {
    forall k :: 0 <= k < |s| ==> IsSpace(s[k])
  }

  /** Index of the first space in `line` at or after `i`, or `|line|` when there is none. */
  function SpaceFrom(line: string, i: nat): (j: nat)
    requires i <= |line|
    ensures i <= j <= |line|
    ensures forall k :: i <= k < j ==> line[k] != ' '
    ensures j == |line| || line[j] == ' '
    decreases |line| - i
  {
    if i == |line| || line[i] == ' ' then i else SpaceFrom(line, i + 1)
  }

  /** `line.split(" ")[0]`: the text before the first space, or the whole line. */
  function FirstField(line: string): (pkg: string)
    ensures pkg <= line
    ensures ' ' !in pkg
    ensures |pkg| == |line| || line[|pkg|] == ' '
  {
    line[..SpaceFrom(line, 0)]
  }

  /** The first field is the only prefix without a space that ends at a space or at the end. */
  lemma FirstFieldUnique(line: string, pkg: string)
    requires pkg <= line && ' ' !in pkg
    requires |pkg| == |line| || line[|pkg|] == ' '
    ensures FirstField(line) == pkg
  {
  }

  /** Index of the last slash in `line` before position `j`, or -1 when there is none. */
  function LastSlashBefore(line: string, j: nat): (i: int)
    requires j <= |line|
    ensures -1 <= i < j
    ensures i >= 0 ==> line[i] == '/'
    ensures forall k :: i < k < j ==> line[k] != '/'
  {
    if j == 0 then -1
    else if line[j - 1] == '/' then j - 1
    else LastSlashBefore(line, j - 1)
  }

  /** `line.split("/")[-1]`: the text after the last slash, or the whole line. */
  function LastSegment(line: string): (seg: string)
    ensures '/' !in seg
    ensures |seg| <= |line| && seg == line[|line| - |seg|..]
    ensures |seg| == |line| || line[|line| - |seg| - 1] == '/'
  {
    line[LastSlashBefore(line, |line|) + 1..]
  }

  /** The last segment is the only suffix without a slash that starts after a slash or at the start. */
  lemma LastSegmentUnique(line: string, seg: string)
    requires |seg| <= |line| && seg == line[|line| - |seg|..] && '/' !in seg
    requires |seg| == |line| || line[|line| - |seg| - 1] == '/'
    ensures LastSegment(line) == seg
  {
  }

  /** The first index at or after `i` that does not hold whitespace, or `|s|`. */
  function SkipSpaces(s: string, i: nat): (j: nat)
    requires i <= |s|
    ensures i <= j <= |s|
    ensures forall k :: i <= k < j ==> IsSpace(s[k])
    ensures j < |s| ==> !IsSpace(s[j])
    decreases |s| - i
  {
    if i == |s| || !IsSpace(s[i]) then i else SkipSpaces(s, i + 1)
  }

  /** The last index at or before `j` that follows a non-whitespace character, or 0. */
  function SkipSpacesBack(s: string, j: nat): (i: nat)
    requires j <= |s|
    ensures i <= j
    ensures forall k :: i <= k < j ==> IsSpace(s[k])
    ensures i > 0 ==> !IsSpace(s[i - 1])
  {
    if j == 0 || !IsSpace(s[j - 1]) then j else SkipSpacesBack(s, j - 1)
  }

  /** Number of whitespace characters at the start of `s`. */
  function LeadingSpaces(s: string): (n: nat)
    ensures n <= |s|
    ensures forall k :: 0 <= k < n ==> IsSpace(s[k])
    ensures n < |s| ==> !IsSpace(s[n])
  {
    SkipSpaces(s, 0)
  }

  /** Number of whitespace characters at the end of `s`. */
  function TrailingSpaces(s: string): (n: nat)
    ensures n <= |s|
    ensures forall k :: |s| - n <= k < |s| ==> IsSpace(s[k])
    ensures n < |s| ==> !IsSpace(s[|s| - n - 1])
  {
    |s| - SkipSpacesBack(s, |s|)
  }

  /** `s.strip()`: `s` without its leading and trailing whitespace. */
  function Strip(s: string): (r: string)
    ensures r == [] || (!IsSpace(r[0]) && !IsSpace(r[|r| - 1]))
  {
    var lead := LeadingSpaces(s);
    if lead == |s| then []
    else
      var trail := TrailingSpaces(s);
      assert lead < |s| - trail;
      s[lead..|s| - trail]
  }

  /** What `Strip` removes is whitespace: `s` is the kept text between a whitespace prefix and a whitespace suffix. */
  lemma StripRemovesOnlySpace(s: string)
    ensures var lead := LeadingSpaces(s); var r := Strip(s);
      && lead + |r| <= |s|
      && s == s[..lead] + r + s[lead + |r|..]
      && AllSpace(s[..lead]) && AllSpace(s[lead + |r|..])
  {
    var lead := LeadingSpaces(s);
    SpaceRun(s, 0, lead);
    assert s[0..lead] == s[..lead];
    if lead == |s| {
      assert s[..lead] == s;
      assert Strip(s) == [];
    } else {
      StripInner(s);
    }
  }

  /** When `s` is not all whitespace, `Strip` drops the trailing whitespace too. */
  lemma StripInner(s: string)
    requires LeadingSpaces(s) < |s|
    ensures var lead, trail := LeadingSpaces(s), TrailingSpaces(s);
      && lead < |s| - trail
      && Strip(s) == s[lead..|s| - trail]
      && s == s[..lead] + Strip(s) + s[|s| - trail..]
      && AllSpace(s[|s| - trail..])
  {
    var lead, trail := LeadingSpaces(s), TrailingSpaces(s);
    SpaceRun(s, |s| - trail, |s|);
    assert s[|s| - trail..|s|] == s[|s| - trail..];
    assert s == s[..lead] + s[lead..|s| - trail] + s[|s| - trail..];
  }

  /** A run of whitespace characters is an all-whitespace slice. */
  lemma SpaceRun(s: string, i: nat, j: nat)
    requires i <= j <= |s|
    requires forall k :: i <= k < j ==> IsSpace(s[k])
    ensures AllSpace(s[i..j])
  {
    forall k | 0 <= k < j - i ensures IsSpace(s[i..j][k]) {
      assert s[i..j][k] == s[i + k];
    }
  }

  /** Whatever sits between whitespace on both sides, and itself neither starts nor ends with it, is what `Strip` keeps. */
  lemma StripUnique(s: string, front: string, r: string, back: string)
    requires s == front + r + back && AllSpace(front) && AllSpace(back)
    requires r == [] || (!IsSpace(r[0]) && !IsSpace(r[|r| - 1]))
    ensures Strip(s) == r
  {
    var lead := LeadingSpaces(s);
    var trail := TrailingSpaces(s);
    if r != [] {
      assert s[|front|] == r[0];
      assert s[|s| - |back| - 1] == r[|r| - 1];
      assert lead == |front|;
      assert trail == |back|;
      assert s[lead..|s| - trail] == r;
    }
  }

  const WRAPPED_SUFFIX := "-wrapped"

  /** Python's `s[-n:]` for `n > 0`: the last `n` characters, or all of `s` when it is shorter. */
  function TailSlice(s: string, n: nat): string {
    if |s| <= n then s else s[|s| - n..]
  }

  /** A wrapper shim, as the source tests it: `cmd[0] == '.'` and `cmd[-8:] == "-wrapped"`. */
  predicate IsWrapperShim(cmd: string) {
    |cmd| > 0 && cmd[0] == '.' && TailSlice(cmd, |WRAPPED_SUFFIX|) == WRAPPED_SUFFIX
  }

  /**
   * The slice test on a name shorter than the suffix compares the whole name,
   * which never equals the suffix once the name starts with '.', so the test
   * is exactly "starts with '.' and ends with `-wrapped`".
   */
  lemma WrapperShimIsSuffixTest(cmd: string)
    ensures IsWrapperShim(cmd) <==>
      |cmd| >= |WRAPPED_SUFFIX| && cmd[0] == '.' && cmd[|cmd| - |WRAPPED_SUFFIX|..] == WRAPPED_SUFFIX
  {
    if |cmd| < |WRAPPED_SUFFIX| && |cmd| > 0 && cmd[0] == '.' {
      assert TailSlice(cmd, |WRAPPED_SUFFIX|)[0] != WRAPPED_SUFFIX[0];
    }
  }

  /** A parenthesised virtual package such as `(foo)`: `pkg[0] == '('` and `pkg[-1] == ')'`. */
  predicate IsVirtualPackage(pkg: string) {
    |pkg| > 0 && pkg[0] == '(' && pkg[|pkg| - 1] == ')'
  }

  /** What `tokenize` does with one line: drop it, yield a candidate, or raise. */
  datatype Token = Discard | Candidate(cmd: string, pkg: string) | IndexError

  /** The command field: the stripped text after the last slash. */
  function CommandField(line: string): string {
    Strip(LastSegment(line))
  }

  /**
   * `tokenize(line)`. A candidate is exactly a line whose two fields are
   * non-empty and pass both filters, and it carries those fields; the line
   * raises exactly when the command is empty, or when a command that is not
   * a shim comes with an empty package (`cmd[0]`, then `pkg[0]`).
   */
  function Tokenize(line: string): (t: Token)
    ensures t.Candidate? <==>
      && CommandField(line) != [] && !IsWrapperShim(CommandField(line))
      && FirstField(line) != [] && !IsVirtualPackage(FirstField(line))
    ensures t.Candidate? ==> t.cmd == CommandField(line) && t.pkg == FirstField(line)
    ensures t == IndexError <==>
      CommandField(line) == [] || (!IsWrapperShim(CommandField(line)) && FirstField(line) == [])
  {
    var pkg := FirstField(line);
    var cmd := CommandField(line);
    if cmd == [] then IndexError         // cmd[0] on an empty command
    else if IsWrapperShim(cmd) then Discard
    else if pkg == [] then IndexError    // pkg[0] on an empty package
    else if IsVirtualPackage(pkg) then Discard
    else Candidate(cmd, pkg)
  }

  /** A wrapper shim is discarded whatever the package field holds, even an empty one. */
  lemma WrapperShimDiscarded(line: string)
    requires IsWrapperShim(CommandField(line))
    ensures Tokenize(line) == Discard
  {
  }

  /** Otherwise a virtual package is discarded whatever the command is. */
  lemma VirtualPackageDiscarded(line: string)
    requires CommandField(line) != [] && !IsWrapperShim(CommandField(line))
    requires IsVirtualPackage(FirstField(line))
    ensures Tokenize(line) == Discard
  {
  }

  /** A well-formed line `pkg + " " + path + "/" + cmd + ws` has `pkg` as its package field. */
  lemma PackageFieldOfLine(pkg: string, rest: string)
    requires ' ' !in pkg
    ensures FirstField(pkg + " " + rest) == pkg
  {
    var line := pkg + " " + rest;
    assert line[|pkg|] == ' ';
    FirstFieldUnique(line, pkg);
  }

  /** The text after a line's last slash is its last segment. */
  lemma LastSegmentOfLine(front: string, seg: string)
    requires '/' !in seg
    ensures LastSegment(front + "/" + seg) == seg
  {
    var line := front + "/" + seg;
    assert line[|line| - |seg|..] == seg;
    assert line[|line| - |seg| - 1] == '/';
    LastSegmentUnique(line, seg);
  }

  /** ... and `cmd` as its command field, whatever trailing whitespace (a newline) follows it. */
  lemma CommandFieldOfLine(front: string, cmd: string, ws: string)
    requires '/' !in cmd && (cmd == [] || (!IsSpace(cmd[0]) && !IsSpace(cmd[|cmd| - 1])))
    requires AllSpace(ws)
    ensures CommandField(front + "/" + cmd + ws) == cmd
  {
    var seg := cmd + ws;
    assert front + "/" + cmd + ws == front + "/" + seg;
    LastSegmentOfLine(front, seg);
    assert seg == [] + cmd + ws;
    StripUnique(seg, [], cmd, ws);
  }

  /**
   * A well-formed output line `pkg + " " + dir + "/" + cmd + "\n"` with a
   * non-empty package and command tokenizes to the pair, unless one of the two
   * filters drops it.
   */
  lemma TokenizeWellFormedLine(pkg: string, dir: string, cmd: string)
    requires pkg != [] && ' ' !in pkg
    requires cmd != [] && '/' !in cmd && !IsSpace(cmd[0]) && !IsSpace(cmd[|cmd| - 1])
    ensures Tokenize(pkg + " " + dir + "/" + cmd + "\n") ==
      if IsWrapperShim(cmd) || IsVirtualPackage(pkg) then Discard else Candidate(cmd, pkg)
  {
    var line := pkg + " " + dir + "/" + cmd + "\n";
    assert line == pkg + " " + (dir + "/" + cmd + "\n");
    PackageFieldOfLine(pkg, dir + "/" + cmd + "\n");
    assert line == (pkg + " " + dir) + "/" + cmd + "\n";
    assert AllSpace("\n");
    CommandFieldOfLine(pkg + " " + dir, cmd, "\n");
  }
}
